=== FILE: README.md ===
# Issuer state machine of the issue-credential protocol

A Dafny model of `IssuerSM`, the issuer side of Aries RFC 0036 (Issue Credential
Protocol 1.0) in aries-vcx. The model also covers the problem report of Aries RFC 0035
and the explicit ack of Aries RFC 0015, as the issuer uses them.

The issuer moves through six states: `Initial`, `ProposalReceived`, `OfferSent`,
`RequestReceived`, `CredentialSent` and `Finished`. `handle_message` consumes the machine
and one `CredentialIssuanceMessage` and returns the next machine. On the way it may build
an offer or a credential through the ledger library and deliver it through the owner's
optional `send_message` callback. `find_message_to_handle` picks from an inbox a message
the current state can handle. Further queries report the public state, the status code,
whether the flow is over, and the revocation data. `revoke` guards revocation of an
issued credential.

Everything is pure. `HandleMessage` returns `Result<Transition, Error>`. A `Transition`
carries the next machine and the log of messages the callback accepted.

Files:

- `wrappers.dfy`: `Option`, `Result` (usable with `:-`) and `Outcome`.
- `errors.dfy`: `ErrorKind` and `Error`, the model of `VcxErrorKind` and `VcxError`.
- `messages.dfy`: the `~thread` decorator, the issuance messages, `A2AMessage`,
  `IssuanceMessage` (for `CredentialIssuanceMessage`), `OfferInfo` and `Status` with its code.
- `issuer_api.dfy`: the public `IssuerState`.
- `issuer_states.dfy`: the data held in each state and the conversions between states.
- `issuer_machine.dfy`: `IssuerSM`, the collaborators (`Services`), `HandleMessage`,
  `FindMessageToHandle` and the queries.
- `issuer_properties.dfy`: properties of one call of the transition function.
- `issuer_runs.dfy`: `Run`, which hands a sequence of messages to `HandleMessage` one at a
  time. It also proves properties of every such run, by induction, and two complete flows.

Collaborators are parameters. A `Services` value bundles them, each as a total function
that succeeds or fails:

- `verify_thread_id`
- the libindy offer creation, `set_offers_attach` and `_append_credential_preview`
- `requests_attach.content()`, `encode_attributes`, and the libindy credential creation
  together with `set_credential`
- the ledger query behind `ProposalReceivedState::is_revokable`
- `revoke_credential` and `revoke_credential_local`
- the conversion from `CredentialSentState` to `FinishedState`
- the random `MessageId` a newly created message gets

`send_message` is an `Option<Sender>`. A `Sender` maps a message to `Pass` or `Fail(error)`.

## Model

| member | source | states |
|---|---|---|
| IssuerMachine.New | aries_vcx/src/handlers/issuance/issuer/state_machine.rs:55-61 | A new machine keeps the given source id and the fresh thread id, and its public state is `Initial`. |
| IssuerMachine.FromProposal | aries_vcx/src/handlers/issuance/issuer/state_machine.rs:63-69 | A machine made from a proposal is on the proposal's id as thread. It is in `ProposalReceived`, and `get_proposal` returns that proposal. |
| IssuerMachine.BuildOffer | aries_vcx/src/handlers/issuance/issuer/state_machine.rs:229-233 | The offer message fails with the attachment error, then with the preview error. Otherwise it carries the given id, thread and comment, the attached libindy offer and the preview. |
| IssuerMachine.RequestNotInThread | aries_vcx/src/handlers/issuance/issuer/state_machine.rs:389-391 | The error for a request from another thread is `InvalidJson`, and its text starts with "Cannot handle credential request: thread id does not match: ". |
| Errors.FromKind | aries_vcx/src/handlers/issuance/issuer/state_machine.rs:100 | An error built from a kind alone (`VcxError::from(VcxErrorKind::NotReady)`) has that kind. |
| IssuerMachine.SendVia | aries_vcx/src/handlers/issuance/issuer/state_machine.rs:234-236 | A missing callback is the `InvalidState` error "undefined send_message callback". A callback's error is passed on unchanged. The call succeeds only if the callback accepts the message, and the sent log is then exactly that message. |
| IssuerMachine.CreateCredential | aries_vcx/src/handlers/issuance/issuer/state_machine.rs:387-401 | A request that does not reply to the thread is rejected with the `InvalidJson` error quoting its thread, before any other call. Otherwise an error in reading the request attachment, and then in encoding the attributes, is the result. When both succeed, the result is the ledger's credential for the stored offer, the request content, the encoded attributes, and the stored registry and tails file. |
| IssuerMachine.HandleMessage | aries_vcx/src/handlers/issuance/issuer/state_machine.rs:217-328 | A failed thread check is the call's error. Messages the state does not handle return the machine unchanged with nothing sent. A handled message always changes the stage. The source id survives every call. At most one message is sent, exactly on the transitions that must send, and always on the resulting thread. No call enters `CredentialSent`. A transition that must send fails when there is no callback. |
| IssuerMachine.Qualify | aries_vcx/src/handlers/issuance/issuer/state_machine.rs:140-188 | `Initial` accepts exactly proposals, whatever their thread. `OfferSent` accepts exactly requests, proposals and problem reports that reply to the thread. `CredentialSent` accepts exactly acks, credential acks and problem reports that reply to the thread. A generic ack is relabelled a credential ack. Every other state accepts nothing. |
| IssuerMachine.FindMessageToHandle | aries_vcx/src/handlers/issuance/issuer/state_machine.rs:137-192 | The result is `None` exactly when no inbox entry qualifies. Otherwise its key is in the inbox, and its message is that entry as the state accepts it. Results arise only in `Initial` (an unchanged proposal), `OfferSent` and `CredentialSent` (a credential ack or problem report), always on the thread outside `Initial`. |
| IssuerMachine.GetState | aries_vcx/src/handlers/issuance/issuer/state_machine.rs:194-208 | A finished flow reads `Finished` exactly when its status is `Success`, and `Failed` otherwise. Each unfinished stage reads as its own name, and no other stage reads that name. |
| IssuerMachine.GetProposal | aries_vcx/src/handlers/issuance/issuer/state_machine.rs:210-215 | The proposal is returned exactly in `ProposalReceived`; any other state gives the `InvalidState` error. |
| IssuerMachine.CredentialStatus | aries_vcx/src/handlers/issuance/issuer/state_machine.rs:330-337 | Outside `Finished` the code is `Undefined`'s. The code is `Success`'s exactly when the public state is `Finished`. Any defined code means the flow is terminal. |
| IssuerMachine.IsTerminalState | aries_vcx/src/handlers/issuance/issuer/state_machine.rs:339-344 | A flow is terminal exactly when its public state is `Finished` or `Failed`. |
| IssuerMachine.GetRevRegId | aries_vcx/src/handlers/issuance/issuer/state_machine.rs:107-124 | Every failure is `InvalidState`, and `Initial` always fails. In `ProposalReceived` (through its offer info, failing without one), `OfferSent` and `RequestReceived` the result is the known registry id, or the "no registry id" error. `CredentialSent` and `Finished` fail without revocation info; with it they return its registry id, or the "no registry id" error. |
| IssuerMachine.IsRevokable | aries_vcx/src/handlers/issuance/issuer/state_machine.rs:126-135 | `Initial` fails with `InvalidState`. Only `Initial`, or a proposal without offer info, can fail. In `ProposalReceived` the answer is whether the offer info names a registry id, or, without offer info, the ledger's answer for the proposal's credential definition (an assumed proposal-stage body, listed below). A known registry id means revocable. In `OfferSent` and `RequestReceived` the answer is whether a registry id is known. In `CredentialSent` and `Finished` it is whether revocation info is present, so a failed flow without it is not revocable. |
| IssuerMachine.Revoke | aries_vcx/src/handlers/issuance/issuer/state_machine.rs:83-105 | Outside `Finished`, or without revocation info, the error is `NotReady`. With any of the three ids missing it is `InvalidRevocationDetails`. With all three present, the outcome is that of the ledger revocation (`publish`) or the local one on the recorded ids, error included. A successful revocation implies a terminal, revocable flow with a registry id, where the ledger (`publish`) or local revocation succeeded on the recorded ids. |
| IssuerProperties.FinishedAbsorbsEverything | aries_vcx/src/handlers/issuance/issuer/state_machine.rs:321-324 | In `Finished` every message that passes the thread check returns the same machine and sends nothing; otherwise the thread-check error is returned. |
| IssuerProperties.UnhandledMessageChangesNothing | aries_vcx/src/handlers/issuance/issuer/state_machine.rs:239-319 | A message the state does not handle returns the same state, state data and thread id with nothing sent. |
| IssuerProperties.StageChangesIffHandled | aries_vcx/src/handlers/issuance/issuer/state_machine.rs:221-325 | A successful call stays in its stage if and only if the message falls through. |
| IssuerProperties.IdentityPreserved | aries_vcx/src/handlers/issuance/issuer/state_machine.rs:220-327 | The source id never changes. The thread id changes in only two cases: a proposal in `Initial` (it becomes the proposal's id) and an offer sent in `ProposalReceived` (it becomes the proposal's thread id). |
| IssuerProperties.InitialProposalIsFromProposal | aries_vcx/src/handlers/issuance/issuer/state_machine.rs:222-226 | Handling a proposal in a new machine gives exactly `from_proposal`'s machine. It sends nothing and needs no callback. |
| IssuerProperties.OfferSendTransition | aries_vcx/src/handlers/issuance/issuer/state_machine.rs:227-256 | `CredentialOfferSend` in `Initial` or `ProposalReceived` fails with the offer-creation, attachment or preview error, in that order, when one of those fails. Once they succeed, the call succeeds exactly when the callback accepts the offer. From `Initial` the offer's id is the thread id; from a proposal it is threaded on the proposal's thread. On success the machine is in `OfferSent` holding the offer, and the offer is the only message sent. |
| IssuerProperties.OfferSentTransitions | aries_vcx/src/handlers/issuance/issuer/state_machine.rs:263-277 | In `OfferSent`, handling never fails and sends nothing, on the same thread. A request leads to `RequestReceived` holding it, and a proposal to `ProposalReceived` with that proposal. A problem report leads to a `Failed` finish whose status carries the report. |
| IssuerProperties.CredentialSendEndsFlow | aries_vcx/src/handlers/issuance/issuer/state_machine.rs:278-301 | `CredentialSend` in `RequestReceived` always ends in a terminal state when it succeeds. It sends the credential if one was built, or otherwise a problem report carrying the error text. The flow reads `Finished` (code `Success`) exactly when the credential was built. It fails without a callback or when the callback refuses. A request from another thread ends as `Failed`. |
| IssuerProperties.IssuedCredentialIsRevocable | aries_vcx/src/handlers/issuance/issuer/state_machine.rs:282-287 | An issued credential leaves the flow revocable. Its registry id is the one the request stage had, and its revocation id is the ledger's. |
| IssuerProperties.CredentialSentClosesAlike | aries_vcx/src/handlers/issuance/issuer/state_machine.rs:307-315 | In `CredentialSent` an ack and a problem report give the same successful, terminal result. |
| IssuerProperties.CredentialSentNeverEntered | aries_vcx/src/handlers/issuance/issuer/state_machine.rs:221-325 | A call that ends in `CredentialSent` started there and changed nothing. |
| IssuerProperties.MissingCallbackIsAnError | aries_vcx/src/handlers/issuance/issuer/state_machine.rs:234-296 | A transition that must send fails with no callback. Once the steps before the send succeed, the error is the `InvalidState` of the undefined callback. |
| IssuerRuns.RunKeepsSourceId | aries_vcx/src/handlers/issuance/issuer/state_machine.rs:220-327 | No sequence of calls changes the source id. |
| IssuerRuns.FinishedRunIsIdle | aries_vcx/src/handlers/issuance/issuer/state_machine.rs:321-324 | Any successful sequence of calls on a finished machine returns it unchanged with nothing sent. If every message passes the thread check, the sequence succeeds. |
| IssuerRuns.RunNeverReachesCredentialSent | aries_vcx/src/handlers/issuance/issuer/state_machine.rs:221-325 | No sequence of calls brings a machine into `CredentialSent`. |
| IssuerRuns.SettledRunKeepsThread | aries_vcx/src/handlers/issuance/issuer/state_machine.rs:278-324 | From `RequestReceived` onward, any sequence of calls stays in those stages and keeps the thread id. Everything it sends is on that thread. |
| IssuerRuns.NoCallbackSendsNothing | aries_vcx/src/handlers/issuance/issuer/state_machine.rs:234-296 | Without a callback, a successful sequence of calls has sent nothing. |
| IssuerRuns.SentMessagesWereAccepted | aries_vcx/src/handlers/issuance/issuer/state_machine.rs:234-296 | Every message in a run's sent log was accepted by the callback. |
| IssuerRuns.HappyPath | aries_vcx/src/handlers/issuance/issuer/state_machine.rs:599-611 | Offer, request and credential-send on a new machine, with cooperating collaborators, end in `Finished` with the `Success` code. The thread stays the same, and the offer and then the credential are sent. |
| IssuerRuns.ForeignRequestFails | aries_vcx/src/handlers/issuance/issuer/state_machine.rs:644-655 | The same flow with a request from another thread ends in `Failed` (code 2), after sending the offer and then a problem report. |

## Left out

- The C entry points in `libvcx/src/api_c/protocols/credential.rs` are left out. They check C strings, log, and dispatch into a handle table that is not shown.
- The Node connection wrapper `wrappers/node/src/api/connection.ts` is left out. It forwards to a native connection-handshake engine. That engine is not part of this model.
- `aries_vcx/src/handlers/issuance/holder/holder.rs` delegates to `HolderSM`, which is not part of this model. Its `update_state` also performs connection I/O.
- `did_resolver_sov/src/dereferencing/dereferencer.rs` and `libvdrtools/src/utils/mod.rs` are left out. The first is an asynchronous ledger lookup; the second holds re-exports and a macro.
- The libindy and anoncreds calls, `verify_thread_id`, `set_offers_attach`, `_append_credential_preview` and `encode_attributes` are opaque fallible functions in `Services`. Their internals, including the JSON parsing of the credential preview, are not modelled.
- The modules that define the state structs and their `From` conversions (`issuer/states/*.rs`) are not part of this model. `issuer_states.dfy` chooses conversions that agree with the tests at state_machine.rs:844-862. An offer keeps the owner's registry id and tails file. The two conversions into `OfferSentState`, `(offer_info, cred_offer)` from `Initial` (:237) and `(cred_offer, offer_info)` from `ProposalReceived` (:256), are assumed to convert alike, as the single `OfferSentFrom`; the tests exercise only the first. An issued credential finishes with revocation info built from its revocation id and that registry and tails file. A flow that finishes with a problem report keeps no revocation info. The conversion from `CredentialSentState` is left as an opaque parameter.
- The thread decorator and `Status` are not part of this model either. `is_reply` is taken to compare the thread id, defaulting to "", with the given id. `get_thread_id` is taken to be the thread id, or else the message's own id. The status codes are 0 `Undefined`, 1 `Success`, 2 `Failed`, 3 `Declined`.
- Error messages built from a kind alone (`VcxError::from(kind)`) carry an empty text. The text a problem report carries is the error's message.
- Random ids (`MessageId::new()`) are parameters: `New`'s thread id and `Services.freshId`. `freshId` is one value for a whole `Run`, so every message created in a run shares one id. No property depends on message ids being distinct.
- The `{:?}` rendering of a request's thread, quoted by the wrong-thread error, is the opaque `Services.formatThread`.
- IssuerMachine.IsRevokable: the `ProposalReceived` answer is an assumed body of `ProposalReceivedState::is_revokable`, which is not part of this model. With offer info it is taken to be whether the offer names a registry id; without it, the ledger collaborator `credDefRevokable` is asked about the proposal's credential definition. Every `ProposalReceived` built in state_machine.rs (:67, :225, :268) has no offer info, so only the ledger branch is reachable there.
- `step`, `get_source_id` and `thread_id` are the constructor and fields of `IssuerSM`.
- Logging is left out.
- `HashMap` iteration order is left out: `FindMessageToHandle` promises some qualifying entry, not a particular one.

=== FILE: errors.dfy ===
/** The error kinds the issuer reports (`VcxErrorKind`) and the error value (`VcxError`). */
module Errors {

  datatype ErrorKind =
    | InvalidState
    | NotReady
    | InvalidRevocationDetails
    | InvalidJson
    | InvalidAttributesStructure
      /** Any other kind, as raised by a collaborator this model treats as opaque. */
    | OtherKind(code: nat)

  datatype Error = Error(kind: ErrorKind, message: string)

  /** An error built from its kind alone (`VcxError::from(kind)`); its default text is not modelled. */
  function FromKind(kind: ErrorKind): (e: Error)
    ensures e.kind == kind
  {
    Error(kind, "")
  }
}

=== FILE: issuer_api.dfy ===
/** The public state of an issuer, as its owner sees it (`IssuerState`). */
module IssuerApi {

  datatype IssuerState =
    | Initial
    | ProposalReceived
    | OfferSent
    | RequestReceived
    | CredentialSent
    | Finished
    | Failed
}

=== FILE: issuer_machine.dfy ===
/**
  The issuer side of Aries RFC 0036 (Issue Credential Protocol 1.0): the state machine
  `IssuerSM`, its transition function `handle_message`, the inbox selector
  `find_message_to_handle`, and the queries and revocation guards over its state.
 */
module IssuerMachine {
  import opened Wrappers
  import opened Errors
  import opened Messages
  import opened IssuerStates
  import IssuerApi

  datatype IssuerFullState =
    | Initial
    | ProposalReceived(proposalData: ProposalReceivedData)
    | OfferSent(offerData: OfferSentData)
    | RequestReceived(requestData: RequestReceivedData)
    | CredentialSent(sentData: CredentialSentData)
    | Finished(finishedData: FinishedData)

  datatype IssuerSM = IssuerSM(sourceId: string, threadId: string, state: IssuerFullState)

  /** The owner's `send_message` callback: delivers a message or reports why it could not. */
  type Sender = A2AMessage -> Outcome<Error>

  /** The issued credential and its revocation id, as the ledger library returns them. */
  datatype IssuedCredential = IssuedCredential(credentialAttach: string, credRevId: Option<string>)

  /**
    The collaborators `handle_message`, `is_revokable` and `revoke` call, each reduced to a
    total function that succeeds or fails, and the id a freshly created message gets.
   */
  datatype Services = Services(
    /** `verify_thread_id(thread_id, message)` */
    verifyThreadId: (string, IssuanceMessage) -> Outcome<Error>,
    /** `libindy_issuer_create_credential_offer(cred_def_id)` */
    createOffer: string -> Result<string, Error>,
    /** `CredentialOffer::set_offers_attach(offer)` */
    attachOffer: string -> Result<string, Error>,
    /** `_append_credential_preview(_, credential_json)`, the preview it adds */
    credentialPreview: string -> Result<seq<PreviewAttribute>, Error>,
    /** `CredentialRequest::requests_attach.content()` */
    requestContent: string -> Result<string, Error>,
    /** `encode_attributes(cred_data)` */
    encodeAttributes: string -> Result<string, Error>,
    /** `libindy_issuer_create_credential(offer, request, cred_data, rev_reg_id, tails_file)` with `set_credential` */
    createCredential: (string, string, string, Option<string>, Option<string>) -> Result<IssuedCredential, Error>,
    /** the ledger query `ProposalReceivedState::is_revokable` makes without offer info */
    credDefRevokable: string -> Result<bool, Error>,
    /** `revoke_credential(tails_file, rev_reg_id, cred_rev_id)` */
    revokeCredential: (string, string, string) -> Outcome<Error>,
    /** `revoke_credential_local(tails_file, rev_reg_id, cred_rev_id)` */
    revokeCredentialLocal: (string, string, string) -> Outcome<Error>,
    /** `FinishedState::from(CredentialSentState)` */
    finishCredentialSent: CredentialSentData -> FinishedData,
    /** the `{:?}` rendering of a request's thread, as error texts quote it */
    formatThread: Thread -> string,
    /** the id `MessageId::new()` gives a message this call creates */
    freshId: string)

  /** A successful step: the next machine and the messages sent on the way, in order. */
  datatype Transition = Transition(machine: IssuerSM, sent: seq<A2AMessage>)

  const UndefinedCallback := Error(InvalidState, "Attempted to call undefined send_message callback")
  const NoRevocationInInitial := Error(InvalidState, "No revocation info available in the initial state")
  const NoRevocationInfo := Error(InvalidState, "No revocation info found - is this credential revokable?")
  const NoRevRegId := Error(InvalidState, "No revocation registry id found on revocation info - is this credential revokable?")
  const MissingRevocationData := Error(InvalidRevocationDetails, "Missing data to perform revocation.")
  const NoProposal := Error(InvalidState, "Proposal is only available in ProposalReceived state")

  /** The error `_create_credential` raises for a request from another thread; it quotes that thread. */
  function RequestNotInThread(svc: Services, thread: Thread): (e: Error)
    ensures e.kind == InvalidJson
    ensures RequestNotInThreadPrefix <= e.message
  {
    Error(InvalidJson, RequestNotInThreadPrefix + svc.formatThread(thread))
  }

  const RequestNotInThreadPrefix := "Cannot handle credential request: thread id does not match: "

  /** `IssuerSM::new`: a machine in `Initial` on a fresh thread. */
  function New(sourceId: string, freshThreadId: string): (sm: IssuerSM)
    ensures sm.sourceId == sourceId && sm.threadId == freshThreadId
    ensures GetState(sm) == IssuerApi.Initial
  {
    IssuerSM(sourceId, freshThreadId, Initial)
  }

  /** `IssuerSM::from_proposal`: a machine that starts with a received proposal, on its thread. */
  function FromProposal(sourceId: string, proposal: CredentialProposal): (sm: IssuerSM)
    ensures sm.sourceId == sourceId && sm.threadId == proposal.id
    ensures GetState(sm) == IssuerApi.ProposalReceived
    ensures GetProposal(sm) == Ok(proposal)
  {
    IssuerSM(sourceId, proposal.id, ProposalReceived(ProposalReceivedData(proposal, None)))
  }

  /** The messages `handle_message` acts on in `state`; every other message falls through. */
  predicate Handles(state: IssuerFullState, cim: IssuanceMessage) {
    match state
    case Initial => cim.Proposal? || cim.OfferSend?
    case ProposalReceived(_) => cim.OfferSend?
    case OfferSent(_) => cim.Request? || cim.Proposal? || cim.ProblemReportReceived?
    case RequestReceived(_) => cim.CredentialSend?
    case CredentialSent(_) => cim.ProblemReportReceived? || cim.CredentialAck?
    case Finished(_) => false
  }

  /** The transitions that must deliver a message to the counterparty. */
  predicate Sends(state: IssuerFullState, cim: IssuanceMessage) {
    || ((state.Initial? || state.ProposalReceived?) && cim.OfferSend?)
    || (state.RequestReceived? && cim.CredentialSend?)
  }

  /** Both states are in the same stage of the protocol, whatever their data. */
  predicate SameStage(a: IssuerFullState, b: IssuerFullState) {
    && a.Initial? == b.Initial?
    && a.ProposalReceived? == b.ProposalReceived?
    && a.OfferSent? == b.OfferSent?
    && a.RequestReceived? == b.RequestReceived?
    && a.CredentialSent? == b.CredentialSent?
    && a.Finished? == b.Finished?
  }

  /** Calls the optional `send_message` callback; what it delivers is the sent log. */
  function SendVia(send: Option<Sender>, m: A2AMessage): (r: Result<seq<A2AMessage>, Error>)
    ensures send.None? ==> r == Err(UndefinedCallback)
    ensures r.Ok? <==> send.Some? && send.value(m).Pass?
    ensures r.Ok? ==> r.value == [m]
    ensures send.Some? && send.value(m).Fail? ==> r == Err(send.value(m).error)
  {
    match send
    case None => Err(UndefinedCallback)
    case Some(deliver) =>
      match deliver(m)
      case Pass => Ok([m])
      case Fail(e) => Err(e)
  }

  /** Builds the offer message around the libindy offer (`CredentialOffer::create()` and setters). */
  function BuildOffer(svc: Services, id: string, thread: Thread, credOffer: string,
                      comment: Option<string>, credentialJson: string): (r: Result<CredentialOffer, Error>)
    ensures svc.attachOffer(credOffer).Err? ==> r == Err(svc.attachOffer(credOffer).error)
    ensures svc.attachOffer(credOffer).Ok? && svc.credentialPreview(credentialJson).Err?
            ==> r == Err(svc.credentialPreview(credentialJson).error)
    ensures r.Ok? <==> svc.attachOffer(credOffer).Ok? && svc.credentialPreview(credentialJson).Ok?
    ensures r.Ok? ==> && r.value.id == id && r.value.thread == thread && r.value.comment == comment
                      && r.value.offersAttach == svc.attachOffer(credOffer).value
                      && r.value.preview == svc.credentialPreview(credentialJson).value
  {
    var attach :- svc.attachOffer(credOffer);
    var preview :- svc.credentialPreview(credentialJson);
    Ok(CredentialOffer(id, thread, comment, attach, preview))
  }

  /** `_create_credential`: issues a credential for a request that belongs to `threadId`. */
  function CreateCredential(svc: Services, data: RequestReceivedData, threadId: string): (r: Result<IssuedCredential, Error>)
    ensures !data.request.thread.IsReply(threadId) ==> r == Err(RequestNotInThread(svc, data.request.thread))
    ensures r.Ok? ==> data.request.thread.IsReply(threadId)
    ensures data.request.thread.IsReply(threadId) && svc.requestContent(data.request.requestsAttach).Err?
            ==> r == Err(svc.requestContent(data.request.requestsAttach).error)
    ensures data.request.thread.IsReply(threadId) && svc.requestContent(data.request.requestsAttach).Ok?
            && svc.encodeAttributes(data.credData).Err?
            ==> r == Err(svc.encodeAttributes(data.credData).error)
    ensures data.request.thread.IsReply(threadId) && svc.requestContent(data.request.requestsAttach).Ok?
            && svc.encodeAttributes(data.credData).Ok?
            ==> r == svc.createCredential(data.offer, svc.requestContent(data.request.requestsAttach).value,
                                          svc.encodeAttributes(data.credData).value, data.revRegId, data.tailsFile)
  {
    if !data.request.thread.IsReply(threadId) then
      Err(RequestNotInThread(svc, data.request.thread))
    else
      var request :- svc.requestContent(data.request.requestsAttach);
      var attributes :- svc.encodeAttributes(data.credData);
      svc.createCredential(data.offer, request, attributes, data.revRegId, data.tailsFile)
  }

  /**
    `handle_message`: consumes the machine and one input, calls the collaborators and
    `send_message` as the state requires, and returns the next machine with what it sent.
   */
  function HandleMessage(sm: IssuerSM, cim: IssuanceMessage, send: Option<Sender>, svc: Services): (r: Result<Transition, Error>)
    ensures svc.verifyThreadId(sm.threadId, cim).Fail? ==> r == Err(svc.verifyThreadId(sm.threadId, cim).error)
    ensures r.Ok? ==> r.value.machine.sourceId == sm.sourceId
    ensures r.Ok? && !Handles(sm.state, cim) ==> r.value == Transition(sm, [])
    ensures r.Ok? && Handles(sm.state, cim) ==> !SameStage(r.value.machine.state, sm.state)
    ensures r.Ok? ==> |r.value.sent| <= 1 && (|r.value.sent| == 1 <==> Sends(sm.state, cim))
    ensures r.Ok? ==> forall m <- r.value.sent :: ThreadIdOf(m) == r.value.machine.threadId
    ensures r.Ok? && r.value.machine.state.CredentialSent? ==> sm.state.CredentialSent?
    ensures send.None? && Sends(sm.state, cim) ==> r.Err?
  {
    var check := svc.verifyThreadId(sm.threadId, cim);
    if check.Fail? then Err(check.error)
    else
      var stay := Ok(Transition(sm, []));
      match sm.state
      case Initial =>
        (match cim
         case Proposal(proposal) =>
           Ok(Transition(IssuerSM(sm.sourceId, proposal.id, ProposalReceived(ProposalReceivedData(proposal, None))), []))
         case OfferSend(info, comment) =>
           var credOffer :- svc.createOffer(info.credDefId);
           var offer :- BuildOffer(svc, sm.threadId, Thread(None), credOffer, comment, info.credentialJson);
           var sent :- SendVia(send, OfferMessage(offer));
           Ok(Transition(IssuerSM(sm.sourceId, sm.threadId, OfferSent(OfferSentFrom(info, credOffer))), sent))
         case _ => stay)
      case ProposalReceived(data) =>
        (match cim
         case OfferSend(info, comment) =>
           var credOffer :- svc.createOffer(info.credDefId);
           var threadId := data.proposal.ThreadId();
           var offer :- BuildOffer(svc, svc.freshId, Thread(Some(threadId)), credOffer, comment, info.credentialJson);
           var sent :- SendVia(send, OfferMessage(offer));
           Ok(Transition(IssuerSM(sm.sourceId, threadId, OfferSent(OfferSentFrom(info, credOffer))), sent))
         case _ => stay)
      case OfferSent(data) =>
        (match cim
         case Request(request) =>
           Ok(Transition(IssuerSM(sm.sourceId, sm.threadId, RequestReceived(RequestReceivedFrom(data, request))), []))
         case Proposal(proposal) =>
           Ok(Transition(IssuerSM(sm.sourceId, sm.threadId, ProposalReceived(ProposalReceivedData(proposal, None))), []))
         case ProblemReportReceived(report) =>
           Ok(Transition(IssuerSM(sm.sourceId, sm.threadId, Finished(FinishedFailed(report))), []))
         case _ => stay)
      case RequestReceived(data) =>
        (match cim
         case CredentialSend =>
           (match CreateCredential(svc, data, sm.threadId)
            case Ok(issued) =>
              var credential := Credential(svc.freshId, Thread(Some(sm.threadId)), issued.credentialAttach);
              var sent :- SendVia(send, CredentialMessage(credential));
              Ok(Transition(IssuerSM(sm.sourceId, sm.threadId, Finished(FinishedIssued(data, issued.credRevId))), sent))
            case Err(e) =>
              var report := ProblemReport(svc.freshId, Thread(Some(sm.threadId)), Some(e.message));
              var sent :- SendVia(send, ProblemReportMessage(report));
              Ok(Transition(IssuerSM(sm.sourceId, sm.threadId, Finished(FinishedFailed(report))), sent)))
         case _ => stay)
      case CredentialSent(data) =>
        (match cim
         case ProblemReportReceived(_) =>
           Ok(Transition(IssuerSM(sm.sourceId, sm.threadId, Finished(svc.finishCredentialSent(data))), []))
         case CredentialAck(_) =>
           Ok(Transition(IssuerSM(sm.sourceId, sm.threadId, Finished(svc.finishCredentialSent(data))), []))
         case _ => stay)
      case Finished(_) => stay
  }

  /** Does `m` reply to thread `threadId`? A proposal without a thread decorator never does. */
  predicate InThread(m: A2AMessage, threadId: string) {
    match m
    case ProposalMessage(p) => p.thread.Some? && p.thread.value.IsReply(threadId)
    case OfferMessage(o) => o.thread.IsReply(threadId)
    case RequestMessage(r) => r.thread.IsReply(threadId)
    case CredentialMessage(c) => c.thread.IsReply(threadId)
    case AckMessage(a) => a.thread.IsReply(threadId)
    case CredentialAckMessage(a) => a.thread.IsReply(threadId)
    case ProblemReportMessage(r) => r.thread.IsReply(threadId)
    case OtherMessage(_) => false
  }

  /**
    Whether the issuer in `state` on thread `threadId` would handle inbox message `m`, and
    under which label: the body of the loop in `find_message_to_handle`.
   */
  function Qualify(state: IssuerFullState, threadId: string, m: A2AMessage): (r: Option<A2AMessage>)
    ensures r.Some? ==> state.Initial? || state.OfferSent? || state.CredentialSent?
    ensures state.Initial? ==> (r.Some? <==> m.ProposalMessage?)
    ensures state.OfferSent? ==>
              (r.Some? <==> (m.RequestMessage? || m.ProposalMessage? || m.ProblemReportMessage?) && InThread(m, threadId))
    ensures state.CredentialSent? ==>
              (r.Some? <==> (m.AckMessage? || m.CredentialAckMessage? || m.ProblemReportMessage?) && InThread(m, threadId))
    ensures r.Some? && !m.AckMessage? ==> r.value == m
    ensures r.Some? && m.AckMessage? ==> r.value == CredentialAckMessage(m.ack)
  {
    match state
    case Initial =>
      if m.ProposalMessage? then Some(m) else None
    case OfferSent(_) =>
      (match m
       case RequestMessage(request) => if request.thread.IsReply(threadId) then Some(m) else None
       case ProposalMessage(proposal) =>
         if proposal.thread.Some? && proposal.thread.value.IsReply(threadId) then Some(m) else None
       case ProblemReportMessage(report) => if report.thread.IsReply(threadId) then Some(m) else None
       case _ => None)
    case CredentialSent(_) =>
      (match m
       case AckMessage(ack) => if ack.thread.IsReply(threadId) then Some(CredentialAckMessage(ack)) else None
       case CredentialAckMessage(ack) => if ack.thread.IsReply(threadId) then Some(m) else None
       case ProblemReportMessage(report) => if report.thread.IsReply(threadId) then Some(m) else None
       case _ => None)
    case _ => None
  }

  /**
    `find_message_to_handle`: some inbox entry the machine can handle, relabelled as it
    will be handled, or `None` when no entry qualifies. The inbox is a map, so which of
    several qualifying entries is returned is left open.
   */
  method FindMessageToHandle(sm: IssuerSM, inbox: map<string, A2AMessage>) returns (found: Option<(string, A2AMessage)>)
    ensures found.None? <==> forall uid :: uid in inbox ==> Qualify(sm.state, sm.threadId, inbox[uid]).None?
    ensures found.Some? ==> found.value.0 in inbox && Qualify(sm.state, sm.threadId, inbox[found.value.0]) == Some(found.value.1)
    ensures found.Some? ==> sm.state.Initial? || sm.state.OfferSent? || sm.state.CredentialSent?
    ensures found.Some? && sm.state.Initial? ==> found.value.1 == inbox[found.value.0] && found.value.1.ProposalMessage?
    ensures found.Some? && !sm.state.Initial? ==> InThread(found.value.1, sm.threadId)
    ensures found.Some? && sm.state.CredentialSent? ==> found.value.1.CredentialAckMessage? || found.value.1.ProblemReportMessage?
  {
    var pending := inbox.Keys;
    while pending != {}
      invariant pending <= inbox.Keys
      invariant forall uid :: uid in inbox && uid !in pending ==> Qualify(sm.state, sm.threadId, inbox[uid]).None?
      decreases pending
    {
      var uid :| uid in pending;
      var selected := Qualify(sm.state, sm.threadId, inbox[uid]);
      if selected.Some? {
        return Some((uid, selected.value));
      }
      pending := pending - {uid};
    }
    return None;
  }

  /** `get_state`: the public state; a finished flow reads `Finished` only if it succeeded. */
  function GetState(sm: IssuerSM): (s: IssuerApi.IssuerState)
    ensures s == IssuerApi.Finished <==> sm.state.Finished? && sm.state.finishedData.status.Success?
    ensures s == IssuerApi.Failed <==> sm.state.Finished? && !sm.state.finishedData.status.Success?
    ensures !sm.state.Finished? ==> s != IssuerApi.Finished && s != IssuerApi.Failed
    ensures s == IssuerApi.Initial <==> sm.state.Initial?
    ensures s == IssuerApi.ProposalReceived <==> sm.state.ProposalReceived?
    ensures s == IssuerApi.OfferSent <==> sm.state.OfferSent?
    ensures s == IssuerApi.RequestReceived <==> sm.state.RequestReceived?
    ensures s == IssuerApi.CredentialSent <==> sm.state.CredentialSent?
  {
    match sm.state
    case Initial => IssuerApi.Initial
    case ProposalReceived(_) => IssuerApi.ProposalReceived
    case OfferSent(_) => IssuerApi.OfferSent
    case RequestReceived(_) => IssuerApi.RequestReceived
    case CredentialSent(_) => IssuerApi.CredentialSent
    case Finished(data) => if data.status.Success? then IssuerApi.Finished else IssuerApi.Failed
  }

  /** `get_proposal`: the proposal, available only while it is being answered. */
  function GetProposal(sm: IssuerSM): (r: Result<CredentialProposal, Error>)
    ensures r.Ok? <==> sm.state.ProposalReceived?
    ensures r.Ok? ==> r.value == sm.state.proposalData.proposal
    ensures r.Err? ==> r.error == NoProposal
  {
    match sm.state
    case ProposalReceived(data) => Ok(data.proposal)
    case _ => Err(NoProposal)
  }

  /** `credential_status`: the status code of a finished flow; `Undefined`'s code before that. */
  function CredentialStatus(sm: IssuerSM): (code: nat)
    ensures !sm.state.Finished? ==> code == Undefined.Code()
    ensures code == Success.Code() <==> GetState(sm) == IssuerApi.Finished
    ensures code != Undefined.Code() ==> IsTerminalState(sm)
  {
    match sm.state
    case Finished(data) => data.status.Code()
    case _ => Undefined.Code()
  }

  /** `is_terminal_state`: only a finished flow is over, whether it succeeded or failed. */
  function IsTerminalState(sm: IssuerSM): (b: bool)
    ensures b <==> GetState(sm) == IssuerApi.Finished || GetState(sm) == IssuerApi.Failed
  {
    sm.state.Finished?
  }

  /** `get_rev_reg_id`: the revocation registry the credential was, or will be, issued in. */
  function GetRevRegId(sm: IssuerSM): (r: Result<string, Error>)
    ensures r.Err? ==> r.error.kind == InvalidState
    ensures sm.state.Initial? ==> r == Err(NoRevocationInInitial)
    ensures sm.state.OfferSent? ==> r == (if sm.state.offerData.revRegId.Some? then Ok(sm.state.offerData.revRegId.value) else Err(NoRevRegId))
    ensures sm.state.RequestReceived? ==>
              r == (if sm.state.requestData.revRegId.Some? then Ok(sm.state.requestData.revRegId.value) else Err(NoRevRegId))
    ensures sm.state.ProposalReceived? && sm.state.proposalData.offerInfo.None? ==> r == Err(NoRevRegId)
    ensures sm.state.ProposalReceived? && sm.state.proposalData.offerInfo.Some? ==>
              var known := sm.state.proposalData.offerInfo.value.revRegId;
              r == (if known.Some? then Ok(known.value) else Err(NoRevRegId))
    ensures sm.state.CredentialSent? && sm.state.sentData.revocationInfo.None? ==> r == Err(NoRevocationInfo)
    ensures sm.state.CredentialSent? && sm.state.sentData.revocationInfo.Some? ==>
              var known := sm.state.sentData.revocationInfo.value.revRegId;
              r == (if known.Some? then Ok(known.value) else Err(NoRevRegId))
    ensures sm.state.Finished? && sm.state.finishedData.revocationInfo.None? ==> r == Err(NoRevocationInfo)
    ensures sm.state.Finished? && sm.state.finishedData.revocationInfo.Some? ==>
              var known := sm.state.finishedData.revocationInfo.value.revRegId;
              r == (if known.Some? then Ok(known.value) else Err(NoRevRegId))
  {
    var recorded :- match sm.state
      case Initial => Err(NoRevocationInInitial)
      case ProposalReceived(data) => Ok(if data.offerInfo.Some? then data.offerInfo.value.revRegId else None)
      case OfferSent(data) => Ok(data.revRegId)
      case RequestReceived(data) => Ok(data.revRegId)
      case CredentialSent(data) =>
        if data.revocationInfo.Some? then Ok(data.revocationInfo.value.revRegId) else Err(NoRevocationInfo)
      case Finished(data) =>
        if data.revocationInfo.Some? then Ok(data.revocationInfo.value.revRegId) else Err(NoRevocationInfo);
    if recorded.Some? then Ok(recorded.value) else Err(NoRevRegId)
  }

  /** `is_revokable`: whether the credential is, or will be, revocable. */
  function IsRevokable(sm: IssuerSM, svc: Services): (r: Result<bool, Error>)
    ensures sm.state.Initial? ==> r == Err(NoRevocationInInitial)
    ensures r.Err? ==> sm.state.Initial? || (sm.state.ProposalReceived? && sm.state.proposalData.offerInfo.None?)
    ensures GetRevRegId(sm).Ok? ==> r == Ok(true)
    ensures sm.state.ProposalReceived? ==>
              var data := sm.state.proposalData;
              r == if data.offerInfo.Some? then Ok(data.offerInfo.value.revRegId.Some?)
                   else svc.credDefRevokable(data.proposal.credDefId)
    ensures sm.state.OfferSent? || sm.state.RequestReceived? ==> r == Ok(GetRevRegId(sm).Ok?)
    ensures sm.state.CredentialSent? ==> r == Ok(sm.state.sentData.revocationInfo.Some?)
    ensures sm.state.Finished? ==> r == Ok(sm.state.finishedData.revocationInfo.Some?)
    ensures GetState(sm) == IssuerApi.Failed && sm.state.finishedData.revocationInfo.None? ==> r == Ok(false)
  {
    match sm.state
    case Initial => Err(NoRevocationInInitial)
    case ProposalReceived(data) =>
      if data.offerInfo.Some? then Ok(data.offerInfo.value.revRegId.Some?)
      else svc.credDefRevokable(data.proposal.credDefId)
    case OfferSent(data) => Ok(data.revRegId.Some?)
    case RequestReceived(data) => Ok(data.revRegId.Some?)
    case CredentialSent(data) => Ok(data.revocationInfo.Some?)
    case Finished(data) => Ok(data.revocationInfo.Some?)
  }

  /** The three ids `revoke` needs, all present. */
  predicate Complete(info: RevocationInfo) {
    info.credRevId.Some? && info.revRegId.Some? && info.tailsFile.Some?
  }

  /** `revoke`: revokes the issued credential on the ledger (`publish`) or only locally. */
  function Revoke(sm: IssuerSM, publish: bool, svc: Services): (r: Outcome<Error>)
    ensures !sm.state.Finished? ==> r == Fail(FromKind(NotReady))
    ensures sm.state.Finished? && sm.state.finishedData.revocationInfo.None? ==> r == Fail(FromKind(NotReady))
    ensures sm.state.Finished? && sm.state.finishedData.revocationInfo.Some? && !Complete(sm.state.finishedData.revocationInfo.value)
            ==> r == Fail(MissingRevocationData)
    ensures sm.state.Finished? && sm.state.finishedData.revocationInfo.Some? && Complete(sm.state.finishedData.revocationInfo.value) ==>
              var info := sm.state.finishedData.revocationInfo.value;
              r == if publish then svc.revokeCredential(info.tailsFile.value, info.revRegId.value, info.credRevId.value)
                   else svc.revokeCredentialLocal(info.tailsFile.value, info.revRegId.value, info.credRevId.value)
    ensures r.Pass? ==> IsTerminalState(sm) && IsRevokable(sm, svc) == Ok(true) && GetRevRegId(sm).Ok?
    ensures r.Pass? && publish ==>
              var info := sm.state.finishedData.revocationInfo.value;
              svc.revokeCredential(info.tailsFile.value, info.revRegId.value, info.credRevId.value).Pass?
    ensures r.Pass? && !publish ==>
              var info := sm.state.finishedData.revocationInfo.value;
              svc.revokeCredentialLocal(info.tailsFile.value, info.revRegId.value, info.credRevId.value).Pass?
  {
    match sm.state
    case Finished(data) =>
      (match data.revocationInfo
       case Some(info) =>
         if Complete(info) then
           if publish then svc.revokeCredential(info.tailsFile.value, info.revRegId.value, info.credRevId.value)
           else svc.revokeCredentialLocal(info.tailsFile.value, info.revRegId.value, info.credRevId.value)
         else Fail(MissingRevocationData)
       case None => Fail(FromKind(NotReady)))
    case _ => Fail(FromKind(NotReady))
  }
}

=== FILE: issuer_properties.dfy ===
/**
  Properties of one call of the issuer's transition function: the transition table, what
  falls through, which identifiers survive, and when `send_message` decides the outcome.
 */
module IssuerProperties {
  import opened Wrappers
  import opened Messages
  import opened IssuerStates
  import opened IssuerMachine
  import IssuerApi

  /** The thread id `handle_message` leaves the machine on, when it succeeds. */
  function NextThreadId(sm: IssuerSM, cim: IssuanceMessage): string {
    if sm.state.Initial? && cim.Proposal? then cim.proposal.id
    else if sm.state.ProposalReceived? && cim.OfferSend? then sm.state.proposalData.proposal.ThreadId()
    else sm.threadId
  }

  /** A finished flow ignores every message: the machine comes back as it was, nothing is sent. */
  lemma FinishedAbsorbsEverything(sm: IssuerSM, cim: IssuanceMessage, send: Option<Sender>, svc: Services)
    requires sm.state.Finished?
    ensures var check := svc.verifyThreadId(sm.threadId, cim);
            HandleMessage(sm, cim, send, svc) == if check.Pass? then Ok(Transition(sm, [])) else Err(check.error)
  {
  }

  /** A message the current state does not act on leaves state, data and thread id as they were. */
  lemma UnhandledMessageChangesNothing(sm: IssuerSM, cim: IssuanceMessage, send: Option<Sender>, svc: Services)
    requires !Handles(sm.state, cim)
    ensures var check := svc.verifyThreadId(sm.threadId, cim);
            HandleMessage(sm, cim, send, svc) == if check.Pass? then Ok(Transition(sm, [])) else Err(check.error)
  {
  }

  /** A step stays in its stage exactly when the message falls through. */
  lemma StageChangesIffHandled(sm: IssuerSM, cim: IssuanceMessage, send: Option<Sender>, svc: Services)
    requires HandleMessage(sm, cim, send, svc).Ok?
    ensures SameStage(HandleMessage(sm, cim, send, svc).value.machine.state, sm.state) <==> !Handles(sm.state, cim)
  {
  }

  /**
    `source_id` never changes; `thread_id` changes only when a proposal opens the flow (it
    becomes the proposal's id) or when an offer answers a proposal (it becomes the
    proposal's thread id).
   */
  lemma IdentityPreserved(sm: IssuerSM, cim: IssuanceMessage, send: Option<Sender>, svc: Services)
    requires HandleMessage(sm, cim, send, svc).Ok?
    ensures HandleMessage(sm, cim, send, svc).value.machine.sourceId == sm.sourceId
    ensures HandleMessage(sm, cim, send, svc).value.machine.threadId == NextThreadId(sm, cim)
  {
  }

  /** Handling a proposal in a fresh machine is `from_proposal`, and needs no callback. */
  lemma InitialProposalIsFromProposal(sourceId: string, threadId: string, proposal: CredentialProposal,
                                      send: Option<Sender>, svc: Services)
    requires svc.verifyThreadId(threadId, Proposal(proposal)).Pass?
    ensures HandleMessage(New(sourceId, threadId), Proposal(proposal), send, svc)
            == Ok(Transition(FromProposal(sourceId, proposal), []))
  {
  }

  /**
    `Initial` or `ProposalReceived` with `CredentialOfferSend`: the libindy offer is made and
    wrapped, the offer message is delivered, and only then is the machine in `OfferSent`.
    Any failure on the way is the call's error.
   */
  lemma OfferSendTransition(sm: IssuerSM, info: OfferInfo, comment: Option<string>, send: Option<Sender>, svc: Services)
    requires sm.state.Initial? || sm.state.ProposalReceived?
    requires svc.verifyThreadId(sm.threadId, OfferSend(info, comment)).Pass?
    ensures var r := HandleMessage(sm, OfferSend(info, comment), send, svc);
            && (svc.createOffer(info.credDefId).Err? ==> r == Err(svc.createOffer(info.credDefId).error))
            && (svc.createOffer(info.credDefId).Ok? && svc.attachOffer(svc.createOffer(info.credDefId).value).Err?
                ==> r == Err(svc.attachOffer(svc.createOffer(info.credDefId).value).error))
            && (svc.createOffer(info.credDefId).Ok? && svc.attachOffer(svc.createOffer(info.credDefId).value).Ok?
                && svc.credentialPreview(info.credentialJson).Err?
                ==> r == Err(svc.credentialPreview(info.credentialJson).error))
            && (r.Ok? ==> r.value.machine.state == OfferSent(OfferSentFrom(info, svc.createOffer(info.credDefId).value)))
    ensures var r := HandleMessage(sm, OfferSend(info, comment), send, svc);
            svc.createOffer(info.credDefId).Ok? ==>
              var credOffer := svc.createOffer(info.credDefId).value;
              svc.attachOffer(credOffer).Ok? && svc.credentialPreview(info.credentialJson).Ok? ==>
                var offer := CredentialOffer(
                  if sm.state.Initial? then sm.threadId else svc.freshId,
                  if sm.state.Initial? then Thread(None) else Thread(Some(sm.state.proposalData.proposal.ThreadId())),
                  comment, svc.attachOffer(credOffer).value, svc.credentialPreview(info.credentialJson).value);
                && (send.None? ==> r == Err(UndefinedCallback))
                && (send.Some? ==> (r.Ok? <==> send.value(OfferMessage(offer)).Pass?))
                && (r.Ok? ==> r.value.sent == [OfferMessage(offer)])
  {
  }

  /** In `OfferSent` the counterparty's request, counter-proposal or problem report move the flow on, with no send. */
  lemma OfferSentTransitions(sm: IssuerSM, cim: IssuanceMessage, send: Option<Sender>, svc: Services)
    requires sm.state.OfferSent?
    requires cim.Request? || cim.Proposal? || cim.ProblemReportReceived?
    requires svc.verifyThreadId(sm.threadId, cim).Pass?
    ensures var r := HandleMessage(sm, cim, send, svc);
            && r.Ok? && r.value.sent == [] && r.value.machine.threadId == sm.threadId
            && (cim.Request? ==> r.value.machine.state == RequestReceived(RequestReceivedFrom(sm.state.offerData, cim.request)))
            && (cim.Proposal? ==> GetProposal(r.value.machine) == Ok(cim.proposal)
                                  && r.value.machine.state.proposalData.offerInfo.None?)
            && (cim.ProblemReportReceived? ==>
                  && GetState(r.value.machine) == IssuerApi.Failed
                  && CredentialStatus(r.value.machine) == Failed(cim.report).Code()
                  && r.value.machine.state.finishedData.status == Failed(cim.report))
  {
  }

  /**
    `RequestReceived` with `CredentialSend` always ends the flow: a built credential is sent
    and the flow succeeds; a credential that cannot be built (a request from another thread,
    say) is answered with a problem report and the flow fails. Either way the message must
    be delivered for the call to succeed.
   */
  lemma CredentialSendEndsFlow(sm: IssuerSM, send: Option<Sender>, svc: Services)
    requires sm.state.RequestReceived?
    requires svc.verifyThreadId(sm.threadId, CredentialSend).Pass?
    ensures var r := HandleMessage(sm, CredentialSend, send, svc);
            var built := CreateCredential(svc, sm.state.requestData, sm.threadId);
            var outgoing := if built.Ok? then CredentialMessage(Credential(svc.freshId, Thread(Some(sm.threadId)), built.value.credentialAttach))
                            else ProblemReportMessage(ProblemReport(svc.freshId, Thread(Some(sm.threadId)), Some(built.error.message)));
            && (send.None? ==> r == Err(UndefinedCallback))
            && (send.Some? ==> (r.Ok? <==> send.value(outgoing).Pass?))
            && (send.Some? && send.value(outgoing).Fail? ==> r == Err(send.value(outgoing).error))
            && (r.Ok? ==> r.value.sent == [outgoing] && r.value.machine.threadId == sm.threadId)
            && (r.Ok? ==> IsTerminalState(r.value.machine))
            && (r.Ok? ==> (GetState(r.value.machine) == IssuerApi.Finished <==> built.Ok?))
            && (r.Ok? ==> (CredentialStatus(r.value.machine) == Success.Code() <==> built.Ok?))
    ensures var r := HandleMessage(sm, CredentialSend, send, svc);
            r.Ok? && !sm.state.requestData.request.thread.IsReply(sm.threadId) ==>
              && GetState(r.value.machine) == IssuerApi.Failed
              && r.value.sent[0].ProblemReportMessage?
              && r.value.sent[0].report.comment == Some(RequestNotInThread(svc, sm.state.requestData.request.thread).message)
  {
  }

  /** An issued credential records its revocation id beside the registry and tails file of the offer. */
  lemma IssuedCredentialIsRevocable(sm: IssuerSM, send: Option<Sender>, svc: Services)
    requires sm.state.RequestReceived?
    requires HandleMessage(sm, CredentialSend, send, svc).Ok?
    requires CreateCredential(svc, sm.state.requestData, sm.threadId).Ok?
    ensures var next := HandleMessage(sm, CredentialSend, send, svc).value.machine;
            && IsRevokable(next, svc) == Ok(true)
            && GetRevRegId(next) == GetRevRegId(sm)
            && next.state.finishedData.revocationInfo.value.credRevId
               == CreateCredential(svc, sm.state.requestData, sm.threadId).value.credRevId
  {
  }

  /** In `CredentialSent`, an ack and a problem report close the flow the same way. */
  lemma CredentialSentClosesAlike(sm: IssuerSM, ack: Ack, report: ProblemReport, send: Option<Sender>, svc: Services)
    requires sm.state.CredentialSent?
    requires svc.verifyThreadId(sm.threadId, CredentialAck(ack)).Pass?
    requires svc.verifyThreadId(sm.threadId, ProblemReportReceived(report)).Pass?
    ensures HandleMessage(sm, CredentialAck(ack), send, svc) == HandleMessage(sm, ProblemReportReceived(report), send, svc)
    ensures HandleMessage(sm, CredentialAck(ack), send, svc).Ok?
    ensures IsTerminalState(HandleMessage(sm, CredentialAck(ack), send, svc).value.machine)
  {
  }

  /** No call moves a machine into `CredentialSent`. */
  lemma CredentialSentNeverEntered(sm: IssuerSM, cim: IssuanceMessage, send: Option<Sender>, svc: Services)
    requires HandleMessage(sm, cim, send, svc).Ok?
    requires HandleMessage(sm, cim, send, svc).value.machine.state.CredentialSent?
    ensures HandleMessage(sm, cim, send, svc).value == Transition(sm, [])
  {
  }

  /**
    A transition that has to send fails without a callback; once the collaborators before
    the send have succeeded, the error is the `InvalidState` of the missing callback.
   */
  lemma MissingCallbackIsAnError(sm: IssuerSM, cim: IssuanceMessage, svc: Services)
    requires Sends(sm.state, cim)
    ensures HandleMessage(sm, cim, None, svc).Err?
    ensures svc.verifyThreadId(sm.threadId, cim).Pass? && cim.CredentialSend?
            ==> HandleMessage(sm, cim, None, svc) == Err(UndefinedCallback)
    ensures svc.verifyThreadId(sm.threadId, cim).Pass? && cim.OfferSend?
            && svc.createOffer(cim.info.credDefId).Ok?
            && svc.attachOffer(svc.createOffer(cim.info.credDefId).value).Ok?
            && svc.credentialPreview(cim.info.credentialJson).Ok?
            ==> HandleMessage(sm, cim, None, svc) == Err(UndefinedCallback)
  {
  }
}

=== FILE: issuer_runs.dfy ===
/**
  The issuer driven through a sequence of messages, each handed to `handle_message` in
  turn as its owner does, and what holds of every such run.
 */
module IssuerRuns {
  import opened Wrappers
  import opened Errors
  import opened Messages
  import opened IssuerStates
  import opened IssuerMachine
  import IssuerApi

  /** Handles `cims` in order, stopping at the first error; the sent log is the concatenation. */
  function Run(sm: IssuerSM, cims: seq<IssuanceMessage>, send: Option<Sender>, svc: Services): Result<Transition, Error>
    decreases |cims|
  {
    if |cims| == 0 then Ok(Transition(sm, []))
    else
      var first :- HandleMessage(sm, cims[0], send, svc);
      var rest :- Run(first.machine, cims[1..], send, svc);
      Ok(Transition(rest.machine, first.sent + rest.sent))
  }

  /** The stages from which the thread can no longer change. */
  predicate Settled(state: IssuerFullState) {
    state.RequestReceived? || state.CredentialSent? || state.Finished?
  }

  /** `source_id` survives any run. */
  lemma {:induction false} RunKeepsSourceId(sm: IssuerSM, cims: seq<IssuanceMessage>, send: Option<Sender>, svc: Services)
    requires Run(sm, cims, send, svc).Ok?
    ensures Run(sm, cims, send, svc).value.machine.sourceId == sm.sourceId
    decreases |cims|
  {
    if |cims| > 0 {
      var first := HandleMessage(sm, cims[0], send, svc).value;
      RunKeepsSourceId(first.machine, cims[1..], send, svc);
    }
  }

  /**
    A finished machine stays as it is under any run; when every message passes the thread
    check, the run succeeds and sends nothing.
   */
  lemma {:induction false} FinishedRunIsIdle(sm: IssuerSM, cims: seq<IssuanceMessage>, send: Option<Sender>, svc: Services)
    requires sm.state.Finished?
    ensures Run(sm, cims, send, svc).Ok? ==> Run(sm, cims, send, svc).value == Transition(sm, [])
    ensures (forall i :: 0 <= i < |cims| ==> svc.verifyThreadId(sm.threadId, cims[i]).Pass?)
            ==> Run(sm, cims, send, svc) == Ok(Transition(sm, []))
    decreases |cims|
  {
    if |cims| > 0 {
      var r := HandleMessage(sm, cims[0], send, svc);
      if r.Ok? {
        assert r.value == Transition(sm, []);
        FinishedRunIsIdle(sm, cims[1..], send, svc);
        if forall i :: 0 <= i < |cims| ==> svc.verifyThreadId(sm.threadId, cims[i]).Pass? {
          assert forall i :: 0 <= i < |cims[1..]| ==> cims[1..][i] == cims[i + 1];
        }
      }
    }
  }

  /** A machine that was never in `CredentialSent` does not get there by any run. */
  lemma {:induction false} RunNeverReachesCredentialSent(sm: IssuerSM, cims: seq<IssuanceMessage>, send: Option<Sender>, svc: Services)
    requires !sm.state.CredentialSent?
    requires Run(sm, cims, send, svc).Ok?
    ensures !Run(sm, cims, send, svc).value.machine.state.CredentialSent?
    decreases |cims|
  {
    if |cims| > 0 {
      var first := HandleMessage(sm, cims[0], send, svc).value;
      RunNeverReachesCredentialSent(first.machine, cims[1..], send, svc);
    }
  }

  /**
    Once a request has been received the flow is settled: it stays settled, keeps its thread
    id, and everything it sends is on that thread.
   */
  lemma {:induction false} SettledRunKeepsThread(sm: IssuerSM, cims: seq<IssuanceMessage>, send: Option<Sender>, svc: Services)
    requires Settled(sm.state)
    requires Run(sm, cims, send, svc).Ok?
    ensures var t := Run(sm, cims, send, svc).value;
            && Settled(t.machine.state)
            && t.machine.threadId == sm.threadId
            && forall m <- t.sent :: ThreadIdOf(m) == sm.threadId
    decreases |cims|
  {
    if |cims| > 0 {
      var first := HandleMessage(sm, cims[0], send, svc).value;
      SettledRunKeepsThread(first.machine, cims[1..], send, svc);
    }
  }

  /** Without a `send_message` callback a run can succeed only by sending nothing. */
  lemma {:induction false} NoCallbackSendsNothing(sm: IssuerSM, cims: seq<IssuanceMessage>, svc: Services)
    requires Run(sm, cims, None, svc).Ok?
    ensures Run(sm, cims, None, svc).value.sent == []
    decreases |cims|
  {
    if |cims| > 0 {
      var first := HandleMessage(sm, cims[0], None, svc).value;
      NoCallbackSendsNothing(first.machine, cims[1..], svc);
    }
  }

  /** Every message a run delivers was accepted by the callback. */
  lemma {:induction false} SentMessagesWereAccepted(sm: IssuerSM, cims: seq<IssuanceMessage>, deliver: Sender, svc: Services)
    requires Run(sm, cims, Some(deliver), svc).Ok?
    ensures forall m <- Run(sm, cims, Some(deliver), svc).value.sent :: deliver(m).Pass?
    decreases |cims|
  {
    if |cims| > 0 {
      var first := HandleMessage(sm, cims[0], Some(deliver), svc).value;
      assert forall m <- first.sent :: deliver(m).Pass?;
      SentMessagesWereAccepted(first.machine, cims[1..], deliver, svc);
    }
  }

  /**
    The whole issuance: offer, request, credential. When the collaborators succeed and the
    request answers the offer's thread, the flow finishes successfully after sending the
    offer and then the credential.
   */
  lemma HappyPath(sourceId: string, threadId: string, info: OfferInfo, request: CredentialRequest,
                  deliver: Sender, svc: Services)
    requires forall t, cim :: svc.verifyThreadId(t, cim).Pass?
    requires forall m :: deliver(m).Pass?
    requires svc.createOffer(info.credDefId).Ok?
    requires svc.attachOffer(svc.createOffer(info.credDefId).value).Ok?
    requires svc.credentialPreview(info.credentialJson).Ok?
    requires request.thread.IsReply(threadId)
    requires svc.requestContent(request.requestsAttach).Ok?
    requires svc.encodeAttributes(info.credentialJson).Ok?
    requires svc.createCredential(svc.createOffer(info.credDefId).value, svc.requestContent(request.requestsAttach).value,
                                  svc.encodeAttributes(info.credentialJson).value, info.revRegId, info.tailsFile).Ok?
    ensures var r := Run(New(sourceId, threadId), [OfferSend(info, None), Request(request), CredentialSend], Some(deliver), svc);
            && r.Ok?
            && GetState(r.value.machine) == IssuerApi.Finished
            && CredentialStatus(r.value.machine) == Success.Code()
            && r.value.machine.threadId == threadId
            && |r.value.sent| == 2
            && r.value.sent[0].OfferMessage? && r.value.sent[1].CredentialMessage?
  {
    var cims := [OfferSend(info, None), Request(request), CredentialSend];
    var sm0 := New(sourceId, threadId);
    var t1 := HandleMessage(sm0, cims[0], Some(deliver), svc).value;
    assert t1.machine.state.OfferSent?;
    var t2 := HandleMessage(t1.machine, cims[1], Some(deliver), svc).value;
    assert t2.machine.state == RequestReceived(RequestReceivedFrom(t1.machine.state.offerData, request));
    var t3 := HandleMessage(t2.machine, cims[2], Some(deliver), svc).value;
    assert CreateCredential(svc, t2.machine.state.requestData, threadId).Ok?;
    assert Run(t2.machine, cims[2..], Some(deliver), svc) == Ok(Transition(t3.machine, t3.sent + []));
    assert cims[1..][0] == cims[1] && cims[1..][1..] == cims[2..];
    assert t2.sent == [];
    assert Run(t1.machine, cims[1..], Some(deliver), svc) == Ok(Transition(t3.machine, [] + (t3.sent + [])));
  }

  /**
    A request from another thread is not issued: the flow still finishes, as a failure,
    after sending the offer and then a problem report.
   */
  lemma ForeignRequestFails(sourceId: string, threadId: string, info: OfferInfo, request: CredentialRequest,
                            deliver: Sender, svc: Services)
    requires forall t, cim :: svc.verifyThreadId(t, cim).Pass?
    requires forall m :: deliver(m).Pass?
    requires svc.createOffer(info.credDefId).Ok?
    requires svc.attachOffer(svc.createOffer(info.credDefId).value).Ok?
    requires svc.credentialPreview(info.credentialJson).Ok?
    requires !request.thread.IsReply(threadId)
    ensures var r := Run(New(sourceId, threadId), [OfferSend(info, None), Request(request), CredentialSend], Some(deliver), svc);
            && r.Ok?
            && GetState(r.value.machine) == IssuerApi.Failed
            && CredentialStatus(r.value.machine) == 2
            && |r.value.sent| == 2
            && r.value.sent[0].OfferMessage? && r.value.sent[1].ProblemReportMessage?
  {
    var cims := [OfferSend(info, None), Request(request), CredentialSend];
    var sm0 := New(sourceId, threadId);
    var t1 := HandleMessage(sm0, cims[0], Some(deliver), svc).value;
    var t2 := HandleMessage(t1.machine, cims[1], Some(deliver), svc).value;
    assert t2.machine.state.RequestReceived? && t2.machine.threadId == threadId;
    var t3 := HandleMessage(t2.machine, cims[2], Some(deliver), svc).value;
    assert CreateCredential(svc, t2.machine.state.requestData, threadId).Err?;
    assert Run(t2.machine, cims[2..], Some(deliver), svc) == Ok(Transition(t3.machine, t3.sent + []));
    assert cims[1..][0] == cims[1] && cims[1..][1..] == cims[2..];
    assert t2.sent == [];
    assert Run(t1.machine, cims[1..], Some(deliver), svc) == Ok(Transition(t3.machine, [] + (t3.sent + [])));
  }
}

=== FILE: issuer_states.dfy ===
/**
  The data an issuer keeps in each state, and the conversions between states that the
  transition function applies.
 */
module IssuerStates {
  import opened Wrappers
  import opened Messages

  /** What is needed to revoke an issued credential. */
  datatype RevocationInfo = RevocationInfo(
    credRevId: Option<string>,
    revRegId: Option<string>,
    tailsFile: Option<string>)

  datatype ProposalReceivedData = ProposalReceivedData(
    proposal: CredentialProposal,
    offerInfo: Option<OfferInfo>)

  datatype OfferSentData = OfferSentData(
    offer: string,
    credData: string,
    revRegId: Option<string>,
    tailsFile: Option<string>)

  datatype RequestReceivedData = RequestReceivedData(
    offer: string,
    credData: string,
    revRegId: Option<string>,
    tailsFile: Option<string>,
    request: CredentialRequest)

  datatype CredentialSentData = CredentialSentData(revocationInfo: Option<RevocationInfo>)

  datatype FinishedData = FinishedData(revocationInfo: Option<RevocationInfo>, status: Status)

  /** An offer was sent: keep the libindy offer and what the owner said about the credential. */
  function OfferSentFrom(info: OfferInfo, credOffer: string): OfferSentData {
    OfferSentData(credOffer, info.credentialJson, info.revRegId, info.tailsFile)
  }

  /** A request arrived for the offer. */
  function RequestReceivedFrom(data: OfferSentData, request: CredentialRequest): RequestReceivedData {
    RequestReceivedData(data.offer, data.credData, data.revRegId, data.tailsFile, request)
  }

  /** The credential was issued with revocation id `credRevId` and sent. */
  function FinishedIssued(data: RequestReceivedData, credRevId: Option<string>): FinishedData {
    FinishedData(Some(RevocationInfo(credRevId, data.revRegId, data.tailsFile)), Success)
  }

  /** The flow ended with `report`, received or sent. */
  function FinishedFailed(report: ProblemReport): FinishedData {
    FinishedData(None, Failed(report))
  }
}

=== FILE: messages.dfy ===
/**
  The protocol messages the issuer receives and sends: the messages of Aries RFC 0036
  (Issue Credential Protocol 1.0), the problem report of Aries RFC 0035 and the explicit
  ack of Aries RFC 0015, each reduced to the fields the issuer reads or writes.
 */
module Messages {
  import opened Wrappers

  /** The `~thread` decorator. */
  datatype Thread = Thread(thid: Option<string>) {

    /** A message replies to thread `id` when its thread id, defaulting to "", is `id`. */
    predicate IsReply(id: string) {
      thid.GetOr("") == id
    }
  }

  /** The thread a message belongs to: its `~thread.thid`, or its own id when it opens a thread. */
  function ThreadIdOr(thread: Option<Thread>, id: string): string {
    if thread.Some? && thread.value.thid.Some? then thread.value.thid.value else id
  }

  datatype CredentialProposal = CredentialProposal(
    id: string,
    thread: Option<Thread>,
    credDefId: string,
    comment: Option<string>)
  {
    function ThreadId(): string {
      ThreadIdOr(thread, id)
    }
  }

  datatype PreviewAttribute = PreviewAttribute(name: string, value: string)

  datatype CredentialOffer = CredentialOffer(
    id: string,
    thread: Thread,
    comment: Option<string>,
    offersAttach: string,
    preview: seq<PreviewAttribute>)

  datatype CredentialRequest = CredentialRequest(id: string, thread: Thread, requestsAttach: string)

  datatype Credential = Credential(id: string, thread: Thread, credentialAttach: string)

  datatype Ack = Ack(id: string, thread: Thread)

  datatype ProblemReport = ProblemReport(id: string, thread: Thread, comment: Option<string>)

  /** Agent-to-agent messages as they arrive in, or leave, the issuer's inbox. */
  datatype A2AMessage =
    | ProposalMessage(proposal: CredentialProposal)
    | OfferMessage(offer: CredentialOffer)
    | RequestMessage(request: CredentialRequest)
    | CredentialMessage(credential: Credential)
    | AckMessage(ack: Ack)
    | CredentialAckMessage(ack: Ack)
    | ProblemReportMessage(report: ProblemReport)
      /** Any message of another protocol. */
    | OtherMessage(id: string)

  /** The thread id a message carries (`get_thread_id`). */
  function ThreadIdOf(m: A2AMessage): string {
    match m
    case ProposalMessage(p) => p.ThreadId()
    case OfferMessage(o) => ThreadIdOr(Some(o.thread), o.id)
    case RequestMessage(r) => ThreadIdOr(Some(r.thread), r.id)
    case CredentialMessage(c) => ThreadIdOr(Some(c.thread), c.id)
    case AckMessage(a) => ThreadIdOr(Some(a.thread), a.id)
    case CredentialAckMessage(a) => ThreadIdOr(Some(a.thread), a.id)
    case ProblemReportMessage(r) => ThreadIdOr(Some(r.thread), r.id)
    case OtherMessage(id) => id
  }

  /** What the issuer's owner supplies to start an offer. */
  datatype OfferInfo = OfferInfo(
    credentialJson: string,
    credDefId: string,
    revRegId: Option<string>,
    tailsFile: Option<string>)

  /** The inputs of the issuance state machines (`CredentialIssuanceMessage`), holder-side ones included. */
  datatype IssuanceMessage =
    | Proposal(proposal: CredentialProposal)
    | ProposalSend(credDefId: string)
    | OfferSend(info: OfferInfo, comment: Option<string>)
    | Offer(offer: CredentialOffer)
    | OfferReject(rejectComment: Option<string>)
    | Request(request: CredentialRequest)
    | RequestSend(myPairwiseDid: string)
    | CredentialSend
    | CredentialIssued(credential: Credential)
    | CredentialAck(ack: Ack)
    | ProblemReportReceived(report: ProblemReport)
    | Unknown

  /** Outcome of an issuance, with its numeric `code()`. */
  datatype Status = Undefined | Success | Failed(report: ProblemReport) | Declined(report: ProblemReport) {
    function Code(): nat {
      match this
      case Undefined => 0
      case Success => 1
      case Failed(_) => 2
      case Declined(_) => 3
    }
  }
}

=== FILE: wrappers.dfy ===
/**
  The `Option`, `VcxResult` and `VcxResult<()>` values of the issuer. Only `Result` is
  failure-compatible (usable with `:-`).
 */
module Wrappers {

  /** An optional value, Rust's `Option`. */
  datatype Option<+T> = None | Some(value: T) {

    /** The wrapped value, or `default` when there is none (`unwrap_or`). */
    function GetOr(default: T): T {
      match this
      case Some(v) => v
      case None => default
    }
  }

  /** A value or an error, Rust's `Result`; usable with `:-`. */
  datatype Result<+R, +E> = Ok(value: R) | Err(error: E) {

    predicate IsFailure() {
      Err?
    }

    function PropagateFailure<U>(): Result<U, E>
      requires Err?
    {
      Err(error)
    }

    function Extract(): R
      requires Ok?
    {
      value
    }
  }

  /** A result that carries no value, Rust's `Result<(), E>`. */
  datatype Outcome<+E> = Pass | Fail(error: E)
}
